=== FILE: README.md ===
# Bottom navigation menu view — a Dafny model

This project models the logic of `BottomNavigationMenuView`, the container view of an Android
bottom navigation bar. The bar lays out a small row of item buttons and tracks one selected
item. In "shifting" mode the selected item is wider than the others. Without the toolkit
plumbing, the class does three things, each modelled here as pure functions over immutable
values:

- **Measure pass** (`Measure`). It distributes the available width `W` over the children, given
  their visibility flags (GONE or not), the selected position, the shifting flag and the four
  width limits. The non-shifting mode uses an equal split capped at the active maximum. The
  shifting mode sizes the selected child first and splits the rest among the others. In both
  modes the leftover pixels go one each to the earliest visible children. The loop that hands
  them out is also modelled as a method with a running `leftover` counter, and it is proved equal
  to the closed-form reference `Slot`.
- **Layout pass** (`Layout`). Visible children are placed side by side at full height, from the
  left or mirrored for right-to-left. GONE children are skipped. The method `OnLayout` is the
  loop with its `used` accumulator, proved equal to the closed-form `RowLayout`.
- **Selection bookkeeping** (`Selection`). This covers rebuilding the buttons from the menu,
  refreshing them in place (the rebuild-or-update decision and whether a transition
  animation starts), and restoring a selection by item id.

`ShiftingMode` holds the AUTO/ON/OFF decision. `Children` holds the counts and running sums over
visibility flags. `Ints` holds `Math.min` and `Math.max`.

The proofs give the conditional properties the code actually has. It is tempting to expect that the
widths always fill `W`, that the selected child stays between its minimum and maximum, and that
it is never narrower than another child. None of these holds in general:

- Non-shifting widths fill `W` exactly iff `W <= N * (activeMax + 1)`. An equal share within the
  cap is sufficient but not necessary, because the leftover pixels can push a child one pixel
  past the cap.
- In shifting mode the active width can fall below the active minimum when `W` is small.
- The active width goes negative when `W` is less than the other children's minimums.
- When the selected child is GONE, its active width is still held back from the others. The
  total is then at most `W - activeWidth`. It equals `W - activeWidth` when some child is
  visible and the inactive split is not capped. When `W` is too small, the total can even
  exceed `W`.
- The selected child is not always at least as wide as the others: a leftover pixel can go to
  an earlier inactive child. Its leftover pixel can also take it one pixel past the active
  maximum.

Where the class's documentation and its code disagree, the model follows the code. The
shifting-mode setter's comment says AUTO shifts with "3 or more" children, but `isShifting`
tests `> 3`. `AutoThresholdIsFour` records this.

## Model

| member | source | states |
|---|---|---|
| ShiftingMode.IsShifting | lib/src/android/support/design/internal/BottomNavigationMenuView.java:394-398 | ON always shifts, OFF never does, AUTO shifts exactly from four children up |
| ShiftingMode.AutoThresholdIsFour | lib/src/android/support/design/internal/BottomNavigationMenuView.java:281-294 | under AUTO three children do not shift and four do, contrary to the setter's "3 or more" comment |
| ShiftingMode.AutoMonotone | lib/src/android/support/design/internal/BottomNavigationMenuView.java:394-397 | under AUTO adding children never turns shifting off |
| Measure.NonShiftingShare | lib/src/android/support/design/internal/BottomNavigationMenuView.java:155-157 | the equal share is non-negative, at most the active maximum and at most `W / N`, and the leftover `extra` is never negative |
| Measure.InactiveCount | lib/src/android/support/design/internal/BottomNavigationMenuView.java:132 | the inactive count plus one for a visible selected child is the visible count, so it is never negative |
| Measure.ActiveItemWidth | lib/src/android/support/design/internal/BottomNavigationMenuView.java:124-131 | the selected child starts from at least the active minimum, and from at least its desired width when visible |
| Measure.ShiftingShare | lib/src/android/support/design/internal/BottomNavigationMenuView.java:132-139 | active width is at most the active maximum and at most the selected child's starting width, equals one of those two or the width left after the inactive minimums, and leaves every inactive child its minimum; inactive width is at most its maximum, the inactive children's total fits in what remains, so `extra >= 0`, and with an inactive child the split is either capped at the inactive maximum or even, leaving fewer leftover pixels than inactive children |
| Measure.FillWidths | lib/src/android/support/design/internal/BottomNavigationMenuView.java:140-168 | the loop with a decrementing `extra` gives child `i` its base width plus one pixel iff fewer than `extra` visible children precede it, GONE children 0, and leaves `max(extra - N, 0)` pixels unplaced |
| Measure.OnMeasure | lib/src/android/support/design/internal/BottomNavigationMenuView.java:113-187 | one width per child, the mode's widths chosen by the shifting decision, 0 for GONE children, reported width the sum over visible children and at most `W` unless shifting with a GONE selected child and `W` below the other children's minimums, height the item height; the selected position is needed only in shifting mode |
| Measure.WidthsPrefixSum | lib/src/android/support/design/internal/BottomNavigationMenuView.java:140-168 | over any prefix the widths add up to the visible base widths plus one pixel for each of the first `extra` visible children |
| Measure.WidthsSum | lib/src/android/support/design/internal/BottomNavigationMenuView.java:171-182 | the measured total is the visible base widths plus `min(extra, N)` |
| Measure.ExtraPixelsGoFirst | lib/src/android/support/design/internal/BottomNavigationMenuView.java:143-149 | if a visible child got a leftover pixel, so did every visible child before it |
| Measure.NonShiftingShape | lib/src/android/support/design/internal/BottomNavigationMenuView.java:155-168 | GONE children get 0; visible ones get `min(W / max(N,1), activeMax)` or one more, never above `activeMax + 1`, in non-increasing order |
| Measure.NonShiftingTotal | lib/src/android/support/design/internal/BottomNavigationMenuView.java:155-168 | the non-shifting total is at most `W`, equals `W` iff `W <= N * (activeMax + 1)`, and equals `W` whenever `W / N <= activeMax` |
| Measure.NonShiftingFillsBeyondCap | lib/src/android/support/design/internal/BottomNavigationMenuView.java:155-168 | the converse fails: one item with cap 0 in width 1 gets width 1 although `W / N` exceeds the cap |
| Measure.ActiveWidthReachesMin | lib/src/android/support/design/internal/BottomNavigationMenuView.java:124-135 | the active width reaches the active minimum when `W` minus the inactive minimums allows it and the active maximum is not below it |
| Measure.ActiveWidthCanMissMin | lib/src/android/support/design/internal/BottomNavigationMenuView.java:124-135 | otherwise it need not: one visible item in width 0 gets active width 0, below a minimum of 10 |
| Measure.ActiveWidthIsDesired | lib/src/android/support/design/internal/BottomNavigationMenuView.java:125-135 | a visible selected child whose desired width lies within the active limits and leaves the others their minimums gets exactly its desired width as its base |
| Measure.ShiftingActiveCanBeNarrower | lib/src/android/support/design/internal/BottomNavigationMenuView.java:136-153 | the selected child can end narrower than an inactive one: four items in 385 pixels, the last selected, get 97, 96, 96, 96 |
| Measure.ShiftingActiveCanExceedMax | lib/src/android/support/design/internal/BottomNavigationMenuView.java:134-153 | the selected child can end one pixel above the active maximum: one item in 100 pixels with maximum 10 gets 11 |
| Measure.InactiveWidthBounds | lib/src/android/support/design/internal/BottomNavigationMenuView.java:136-139 | with an inactive child present, the inactive width reaches the inactive minimum (when min <= max) and an uncapped split leaves fewer leftover pixels than inactive children |
| Measure.ShiftingShape | lib/src/android/support/design/internal/BottomNavigationMenuView.java:140-153 | GONE children, a GONE selected one included, get 0; the visible selected child gets the active width or one more, so at most `activeMax + 1`; other visible ones the inactive width or one more; extra pixels go to the earliest |
| Measure.ShiftingTotalActiveVisible | lib/src/android/support/design/internal/BottomNavigationMenuView.java:132-153 | with the selected child visible the total is at most `W`, and exactly `W` when an inactive child exists and `(W - activeWidth) / inactiveCount <= inactiveMax` |
| Measure.ShiftingTotalActiveGone | lib/src/android/support/design/internal/BottomNavigationMenuView.java:132-153 | with the selected child GONE the total is at most `W - activeWidth`, and exactly that when the split is uncapped |
| Measure.ShiftingWidthsNonNegative | lib/src/android/support/design/internal/BottomNavigationMenuView.java:133-139 | no width is negative when `W` covers every inactive child's minimum |
| Measure.ShiftingActiveWidthCanBeNegative | lib/src/android/support/design/internal/BottomNavigationMenuView.java:133-135 | below that bound the active width is negative: two visible items in width 0 with all dimensions 1 get -1 and 1 |
| Measure.ShiftingGoneActiveCanOverflow | lib/src/android/support/design/internal/BottomNavigationMenuView.java:132-153 | with a GONE selected child and too little width the total exceeds `W`: widths 0 and 1 in width 0 |
| Layout.OnLayout | lib/src/android/support/design/internal/BottomNavigationMenuView.java:190-207 | the loop places visible child `i` at `[used, used + w)` (or its RTL form) with `used` the sum of the preceding visible widths, and skips GONE children |
| Layout.SpansFullHeight | lib/src/android/support/design/internal/BottomNavigationMenuView.java:195-206 | exactly the visible children are placed, each from top 0 to the parent's height and as wide as its measured width |
| Layout.RtlMirrorsLtr | lib/src/android/support/design/internal/BottomNavigationMenuView.java:200-204 | the RTL span is the LTR span mirrored: `left = width - used - w`, `right = width - used` |
| Layout.LtrSpansAdjacent | lib/src/android/support/design/internal/BottomNavigationMenuView.java:194-206 | each visible child starts where the previous visible one ends, and the first starts at 0 |
| Layout.LtrSpansDisjoint | lib/src/android/support/design/internal/BottomNavigationMenuView.java:194-206 | with non-negative widths visible spans do not overlap and lie within `[0, total]` |
| Layout.SpansFitRow | lib/src/android/support/design/internal/BottomNavigationMenuView.java:194-206 | with non-negative widths summing to the parent's width, visible spans lie inside the parent and do not overlap, in either direction |
| Layout.NonShiftingLayoutFits | lib/src/android/support/design/internal/BottomNavigationMenuView.java:113-207 | measure then layout in non-shifting mode, in either direction: the measured width is at most `W`, and every visible span lies inside it without overlap |
| Layout.ShiftingLayoutFits | lib/src/android/support/design/internal/BottomNavigationMenuView.java:113-207 | the same in shifting mode, in either direction, with the selected child visible or GONE, when `W` covers the inactive minimums |
| Selection.LastCheckedBefore | lib/src/android/support/design/internal/BottomNavigationMenuView.java:361-367 | the result is a checked item with no checked item after it, or none when nothing is checked |
| Selection.FirstWithIdFrom | lib/src/android/support/design/internal/BottomNavigationMenuView.java:402-410 | the result is an item with the id and no earlier item has it, or none when no item has it |
| Selection.Build | lib/src/android/support/design/internal/BottomNavigationMenuView.java:311-345 | an empty menu gives no buttons with id and position 0; otherwise one button per item at its own position showing that item with the current shifting flag, all items checkable, position clamped to `min(size - 1, old)` and that item checked, id kept by the method itself (a re-entrant refresh is the separate `Update`) |
| Selection.ScanChecked | lib/src/android/support/design/internal/BottomNavigationMenuView.java:359-367 | the loop leaves the id and position of the last checked item, or the old ones when none is checked |
| Selection.Update | lib/src/android/support/design/internal/BottomNavigationMenuView.java:347-380 | no menu or no buttons: nothing changes; size mismatch: rebuild without transition; otherwise last checked item selected (old selection kept if none), buttons re-bound, transition iff the id changed |
| Selection.TryRestore | lib/src/android/support/design/internal/BottomNavigationMenuView.java:400-411 | the first item with the id becomes selected and checked; with no match nothing changes |
| Selection.NewViewConsistent | lib/src/android/support/design/internal/BottomNavigationMenuView.java:57-61 | a new view, and one just given a menu, keep the selected position within the buttons |
| Selection.BuildConsistent | lib/src/android/support/design/internal/BottomNavigationMenuView.java:320-344 | after a build the selected position is within the buttons and each button knows its position |
| Selection.UpdateConsistent | lib/src/android/support/design/internal/BottomNavigationMenuView.java:347-367 | a refresh preserves that invariant |
| Selection.RestoreConsistent | lib/src/android/support/design/internal/BottomNavigationMenuView.java:400-411 | a restore preserves it when the buttons match the menu's size |
| Selection.RestoreCanOutrunButtons | lib/src/android/support/design/internal/BottomNavigationMenuView.java:400-411 | a restore after the menu grew can move the selected position past the last button |
| Selection.UpdateSettles | lib/src/android/support/design/internal/BottomNavigationMenuView.java:359-371 | a second refresh right after a refresh changes nothing and starts no transition |
| Selection.BuildThenUpdate | lib/src/android/support/design/internal/BottomNavigationMenuView.java:343-371 | after a rebuild, the next refresh selects a checked item at or after the clamped position, and animates iff its id differs from the id the rebuild kept |
| Selection.RestoreThenUpdate | lib/src/android/support/design/internal/BottomNavigationMenuView.java:400-411 | a restore followed by a refresh keeps the restored item selected without a transition when no later item is checked |

## Left out

- Android view machinery: `MeasureSpec` packing, `child.measure`, `getMeasuredWidth`, `resolveSizeAndState`, `setMeasuredDimension` and `LayoutParams`. A child's measured width is taken to be the width assigned to it. The selected child's `AT_MOST` measurement is the input `desiredWidth`.
- The parent's layout direction is the input `rtl`. The menu's visible item count is taken to be the number of visible child flags.
- Measure.OnMeasure: in shifting mode the selected position must index a child. The source throws otherwise, for example with the ON flag and an empty menu, or a stale position left by a restore. The menu being absent during a measure pass would throw too; the model takes the visibility flags as given.
- Measure.OnMeasure: Java's 32-bit `int` overflow is not modelled, because pixel dimensions are far below 2^31. Negative sizes passed to `MeasureSpec` are not modelled either.
- Transitions and animation (`AutoTransition`, `TransitionManager`, `TextScale`, interpolator, duration). Only the boolean "start a transition" decision is modelled.
- The item-view pool (`Pools.SynchronizedPool`) and `getNewItem`. Reuse of button objects is not observable in this logic; a button is a value.
- Style setters and getters (`setIconTintList`, `setItemTextColor`, `setItemBackgroundRes`, `getWindowAnimations`). They only copy a field into each button.
- Click handling: `performItemAction` belongs to the menu implementation, which is not part of this model. The presenter's update-suspension calls are left out too.
- Selection.Build / Selection.TryRestore: checking an item only sets that item's flag. Unchecking the other members of an exclusive checkable group is done by the menu implementation, which is not part of this model. The `setChecked(true)` calls at the end of `buildMenuView` and in `tryRestoreSelectedItemId` run outside the presenter's update suspension, so the menu's presenter may refresh this view re-entrantly before the call returns. The model leaves that refresh to an explicit `Update` call: `Build` and `TryRestore` describe their own method bodies, and `BuildThenUpdate` and `RestoreThenUpdate` give the combined state.
- The width cache holds at most five entries, the menu's item limit. The menu class that enforces that limit is not part of this model, so widths are an unbounded sequence here.
- The resource lookups in the constructor: the five dimensions are the `Dimensions` parameter.
- ShiftingMode.IsShifting: the flag is an `int` restricted to three values by an annotation. Any other value would not shift and is not modelled.
- A menu that is absent when `buildMenuView` or `tryRestoreSelectedItemId` runs would throw. Both require a menu instead.

=== FILE: children.dfy ===
/**
  The child views of the menu as the measure and layout passes see them: a sequence of
  visibility flags (`true` unless the child is GONE), and the running counts and sums the two
  passes accumulate over the visible ones.
 */
module Children {

  /** Number of visible children among the first `k`. */
  function VisibleBefore(vis: seq<bool>, k: nat): (n: nat)
    requires k <= |vis|
    ensures n <= k
  {
    if k == 0 then 0 else VisibleBefore(vis, k - 1) + (if vis[k - 1] then 1 else 0)
  }

  /** Number of visible children. */
  function VisibleCount(vis: seq<bool>): nat
  {
    VisibleBefore(vis, |vis|)
  }

  /** Sum of the widths `ws` of the visible children among the first `k`; GONE children add nothing. */
  function VisibleSum(vis: seq<bool>, ws: seq<int>, k: nat): int
    requires |ws| == |vis| && k <= |vis|
  {
    if k == 0 then 0 else VisibleSum(vis, ws, k - 1) + (if vis[k - 1] then ws[k - 1] else 0)
  }

  lemma {:induction false} VisibleBeforeMonotone(vis: seq<bool>, i: nat, j: nat)
    requires i <= j <= |vis|
    ensures VisibleBefore(vis, i) <= VisibleBefore(vis, j)
  {
    if i < j {
      VisibleBeforeMonotone(vis, i, j - 1);
    }
  }

  /** A visible child at `i` is counted by every prefix that extends past it. */
  lemma {:induction false} VisibleBeforeStrict(vis: seq<bool>, i: nat, j: nat)
    requires i < j <= |vis| && vis[i]
    ensures VisibleBefore(vis, i) < VisibleBefore(vis, j)
  {
    VisibleBeforeMonotone(vis, i + 1, j);
  }

  /** With non-negative widths the running sum never decreases. */
  lemma {:induction false} VisibleSumMonotone(vis: seq<bool>, ws: seq<int>, i: nat, j: nat)
    requires |ws| == |vis| && i <= j <= |vis|
    requires forall k :: 0 <= k < |ws| ==> ws[k] >= 0
    ensures VisibleSum(vis, ws, i) <= VisibleSum(vis, ws, j)
  {
    if i < j {
      VisibleSumMonotone(vis, ws, i, j - 1);
    }
  }

  /** A run of GONE children adds nothing to the running sum. */
  lemma {:induction false} VisibleSumSkipsGone(vis: seq<bool>, ws: seq<int>, i: nat, j: nat)
    requires |ws| == |vis| && i <= j <= |vis|
    requires forall k :: i <= k < j ==> !vis[k]
    ensures VisibleSum(vis, ws, j) == VisibleSum(vis, ws, i)
  {
    if i < j {
      VisibleSumSkipsGone(vis, ws, i, j - 1);
    }
  }
}

=== FILE: ints.dfy ===
/** Java's `Math.min` and `Math.max` on integers. */
module Ints {

  function Min(a: int, b: int): (m: int)
    ensures m <= a && m <= b && (m == a || m == b)
  {
    if a <= b then a else b
  }

  function Max(a: int, b: int): (m: int)
    ensures m >= a && m >= b && (m == a || m == b)
  {
    if a <= b then b else a
  }
}

=== FILE: layout.dfy ===
/**
  The layout pass of the menu: visible children are placed side by side across the full height,
  from the left edge, or from the right edge in a right-to-left layout direction; GONE children
  are not placed at all.
 */
module Layout {
  import opened Children
  import opened ShiftingMode
  import opened Measure

  /** The bounds a child is laid out at, relative to the parent's own left and top. */
  datatype Span = Span(left: int, top: int, right: int, bottom: int)

  /** What the pass does with one child: nothing for a GONE child, otherwise a span. */
  datatype Placement = Skipped | Placed(span: Span)

  /** The bounds of a child `w` wide once `used` pixels of the row are taken. */
  function Place(used: int, w: int, width: int, height: int, rtl: bool): Span
  {
    if rtl then Span(width - used - w, 0, width - used, height) else Span(used, 0, used + w, height)
  }

  /** The reflection of a span about the vertical centre line of a parent `width` wide. */
  function Mirror(sp: Span, width: int): Span
  {
    Span(width - sp.right, sp.top, width - sp.left, sp.bottom)
  }

  /** Child `i`'s place: after all visible children before it, or nowhere when it is GONE. */
  function PlacementOf(vis: seq<bool>, ws: seq<int>, width: int, height: int, rtl: bool, i: nat): Placement
    requires |ws| == |vis| && i < |vis|
  {
    if vis[i] then Placed(Place(VisibleSum(vis, ws, i), ws[i], width, height, rtl)) else Skipped
  }

  function RowLayout(vis: seq<bool>, ws: seq<int>, width: int, height: int, rtl: bool): (spans: seq<Placement>)
    requires |ws| == |vis|
    ensures |spans| == |vis|
    ensures forall i :: 0 <= i < |vis| ==> spans[i] == PlacementOf(vis, ws, width, height, rtl, i)
  {
    seq(|vis|, i requires 0 <= i < |vis| => PlacementOf(vis, ws, width, height, rtl, i))
  }

  /**
    The pass itself, given the parent's bounds within its own parent and the children's
    measured widths: one sweep with a running total of the width used so far, which only
    visible children advance.
   */
  method OnLayout(vis: seq<bool>, ws: seq<int>, bounds: Span, rtl: bool) returns (spans: seq<Placement>)
    requires |ws| == |vis|
    ensures spans == RowLayout(vis, ws, bounds.right - bounds.left, bounds.bottom - bounds.top, rtl)
  {
    var width := bounds.right - bounds.left;
    var height := bounds.bottom - bounds.top;
    spans := [];
    var used := 0;
    var i := 0;
    while i < |vis|
      invariant 0 <= i <= |vis|
      invariant |spans| == i
      invariant forall j :: 0 <= j < i ==> spans[j] == PlacementOf(vis, ws, width, height, rtl, j)
      invariant used == VisibleSum(vis, ws, i)
    {
      if !vis[i] {
        spans := spans + [Skipped];
      } else {
        if rtl {
          spans := spans + [Placed(Span(width - used - ws[i], 0, width - used, height))];
        } else {
          spans := spans + [Placed(Span(used, 0, ws[i] + used, height))];
        }
        used := used + ws[i];
      }
      i := i + 1;
    }
  }

  /** Every visible child spans the full height; only GONE children are left unplaced. */
  lemma SpansFullHeight(vis: seq<bool>, ws: seq<int>, width: int, height: int, rtl: bool)
    requires |ws| == |vis|
    ensures forall i :: 0 <= i < |vis| ==>
      (RowLayout(vis, ws, width, height, rtl)[i].Placed? <==> vis[i])
    ensures forall i :: 0 <= i < |vis| && vis[i] ==>
      var sp := RowLayout(vis, ws, width, height, rtl)[i].span;
      sp.top == 0 && sp.bottom == height && sp.right - sp.left == ws[i]
  {
  }

  /** The right-to-left placement is the left-to-right one reflected in the parent's width. */
  lemma RtlMirrorsLtr(vis: seq<bool>, ws: seq<int>, width: int, height: int)
    requires |ws| == |vis|
    ensures forall i :: 0 <= i < |vis| && vis[i] ==>
      RowLayout(vis, ws, width, height, true)[i] == Placed(Mirror(RowLayout(vis, ws, width, height, false)[i].span, width))
  {
  }

  /**
    Left to right, each visible child starts where the previous visible child ends; the first
    starts at 0.
   */
  lemma LtrSpansAdjacent(vis: seq<bool>, ws: seq<int>, width: int, height: int)
    requires |ws| == |vis|
    ensures forall i, j :: 0 <= i < j < |vis| && vis[i] && vis[j] && (forall k :: i < k < j ==> !vis[k]) ==>
      RowLayout(vis, ws, width, height, false)[i].span.right == RowLayout(vis, ws, width, height, false)[j].span.left
    ensures forall j :: 0 <= j < |vis| && vis[j] && (forall k :: 0 <= k < j ==> !vis[k]) ==>
      RowLayout(vis, ws, width, height, false)[j].span.left == 0
  {
    forall i, j | 0 <= i < j < |vis| && vis[i] && vis[j] && (forall k :: i < k < j ==> !vis[k])
      ensures VisibleSum(vis, ws, i) + ws[i] == VisibleSum(vis, ws, j)
    {
      VisibleSumSkipsGone(vis, ws, i + 1, j);
    }
    forall j | 0 <= j < |vis| && vis[j] && (forall k :: 0 <= k < j ==> !vis[k])
      ensures VisibleSum(vis, ws, j) == 0
    {
      VisibleSumSkipsGone(vis, ws, 0, j);
    }
  }

  /**
    Left to right with non-negative widths, visible children never overlap and all lie within
    the total of the visible widths.
   */
  lemma LtrSpansDisjoint(vis: seq<bool>, ws: seq<int>, width: int, height: int)
    requires |ws| == |vis|
    requires forall k :: 0 <= k < |ws| ==> ws[k] >= 0
    ensures forall i, j :: 0 <= i < j < |vis| && vis[i] && vis[j] ==>
      RowLayout(vis, ws, width, height, false)[i].span.right <= RowLayout(vis, ws, width, height, false)[j].span.left
    ensures forall i :: 0 <= i < |vis| && vis[i] ==>
      0 <= RowLayout(vis, ws, width, height, false)[i].span.left
      && RowLayout(vis, ws, width, height, false)[i].span.right <= VisibleSum(vis, ws, |vis|)
  {
    forall i, j | 0 <= i < j < |vis| && vis[i] && vis[j]
      ensures VisibleSum(vis, ws, i) + ws[i] <= VisibleSum(vis, ws, j)
    {
      VisibleSumMonotone(vis, ws, i + 1, j);
    }
    forall i | 0 <= i < |vis| && vis[i]
      ensures 0 <= VisibleSum(vis, ws, i) && VisibleSum(vis, ws, i) + ws[i] <= VisibleSum(vis, ws, |vis|)
    {
      VisibleSumMonotone(vis, ws, 0, i);
      VisibleSumMonotone(vis, ws, i + 1, |vis|);
    }
  }

  /**
    With non-negative widths adding up to the parent's width, every visible child lies inside
    the parent and no two overlap: left to right each lies left of the visible children after
    it, right to left each lies right of them.
   */
  lemma SpansFitRow(vis: seq<bool>, ws: seq<int>, width: int, height: int, rtl: bool)
    requires |ws| == |vis|
    requires forall k :: 0 <= k < |ws| ==> ws[k] >= 0
    requires width == VisibleSum(vis, ws, |vis|)
    ensures var spans := RowLayout(vis, ws, width, height, rtl);
      && (forall i :: 0 <= i < |vis| && vis[i] ==>
            0 <= spans[i].span.left <= spans[i].span.right <= width)
      && (forall i, j :: 0 <= i < j < |vis| && vis[i] && vis[j] ==>
            if rtl then spans[j].span.right <= spans[i].span.left
            else spans[i].span.right <= spans[j].span.left)
  {
    LtrSpansDisjoint(vis, ws, width, height);
    RtlMirrorsLtr(vis, ws, width, height);
  }

  /**
    A measure pass followed by a layout pass in the measured width: in non-shifting mode the
    measured width is within the available width, and every visible child lands inside the
    parent without overlap, in either layout direction.
   */
  lemma NonShiftingLayoutFits(width: nat, vis: seq<bool>, selected: nat, desiredWidth: nat, flag: Flag, dims: Dimensions, rtl: bool)
    requires !IsShifting(flag, VisibleCount(vis))
    ensures var m := OnMeasure(width, vis, selected, desiredWidth, flag, dims);
      var spans := RowLayout(vis, m.widths, m.width, m.height, rtl);
      && m.width <= width
      && (forall i :: 0 <= i < |vis| && vis[i] ==> 0 <= spans[i].span.left <= spans[i].span.right <= m.width)
      && (forall i, j :: 0 <= i < j < |vis| && vis[i] && vis[j] ==>
            if rtl then spans[j].span.right <= spans[i].span.left
            else spans[i].span.right <= spans[j].span.left)
  {
    var m := OnMeasure(width, vis, selected, desiredWidth, flag, dims);
    NonShiftingShape(width, vis, dims);
    forall k | 0 <= k < |m.widths|
      ensures m.widths[k] >= 0
    {
    }
    SpansFitRow(vis, m.widths, m.width, m.height, rtl);
  }

  /**
    The same in shifting mode, whether the selected child is visible or GONE, provided the width
    covers the minimum of every other visible child.
   */
  lemma ShiftingLayoutFits(width: nat, vis: seq<bool>, selected: nat, desiredWidth: nat, flag: Flag, dims: Dimensions, rtl: bool)
    requires IsShifting(flag, VisibleCount(vis))
    requires selected < |vis|
    requires width >= InactiveCount(vis, selected) * dims.inactiveItemMinWidth
    ensures var m := OnMeasure(width, vis, selected, desiredWidth, flag, dims);
      var spans := RowLayout(vis, m.widths, m.width, m.height, rtl);
      && m.width <= width
      && (forall i :: 0 <= i < |vis| && vis[i] ==> 0 <= spans[i].span.left <= spans[i].span.right <= m.width)
      && (forall i, j :: 0 <= i < j < |vis| && vis[i] && vis[j] ==>
            if rtl then spans[j].span.right <= spans[i].span.left
            else spans[i].span.right <= spans[j].span.left)
  {
    var m := OnMeasure(width, vis, selected, desiredWidth, flag, dims);
    ShiftingWidthsNonNegative(width, vis, selected, desiredWidth, dims);
    if !vis[selected] {
      ShiftingTotalActiveGone(width, vis, selected, desiredWidth, dims);
    }
    SpansFitRow(vis, m.widths, m.width, m.height, rtl);
  }
}

=== FILE: measure.dfy ===
/**
  The width-distribution half of the menu's measure pass: from the available width, the
  children's visibility and the selected position, one pixel width per child.

  Java's `/` truncates toward zero and Dafny's is Euclidean; every division below has a
  non-negative numerator and a positive divisor, where the two agree.
 */
module Measure {
  import opened Children
  import opened Ints
  import opened ShiftingMode

  /** The dimension resources read once by the view, in pixels. */
  datatype Dimensions = Dimensions(
    inactiveItemMaxWidth: nat,
    inactiveItemMinWidth: nat,
    activeItemMaxWidth: nat,
    activeItemMinWidth: nat,
    itemHeight: nat)

  /**
    The three numbers fixed before the distribution loop runs: the base width of the selected
    child, the base width of every other visible child, and the leftover pixels the loop hands
    out one at a time.
   */
  datatype Share = Share(activeWidth: int, inactiveWidth: int, extra: int)

  /** What the measure pass reports: one width per child, the total width and the height. */
  datatype Measured = Measured(widths: seq<int>, width: int, height: int)

  lemma MulMonotone(a: int, b: int, c: nat)
    requires a <= b
    ensures a * c <= b * c
  {
  }

  lemma MulStep(c: int, w: int)
    ensures (c + 1) * w == c * w + w
    ensures (c - 1) * w + w == c * w
  {
  }

  lemma DivBounds(n: nat, d: nat)
    requires d > 0
    ensures (n / d) * d <= n < (n / d) * d + d
  {
  }

  // ---------------------------------------------------------------------------------------
  // The numbers computed before the loop
  // ---------------------------------------------------------------------------------------

  /** Non-shifting: an equal split of the width over the visible children, capped at the active maximum. */
  function NonShiftingShare(width: nat, visibleCount: nat, dims: Dimensions): (s: Share)
    ensures s.activeWidth == s.inactiveWidth
    ensures 0 <= s.inactiveWidth <= dims.activeItemMaxWidth
    ensures visibleCount >= 1 ==> s.inactiveWidth <= width / visibleCount
    ensures s.inactiveWidth * visibleCount + s.extra == width
    ensures s.extra >= 0
  {
    var maxAvailable := width / (if visibleCount == 0 then 1 else visibleCount);
    var childWidth := Min(maxAvailable, dims.activeItemMaxWidth);
    DivBounds(width, if visibleCount == 0 then 1 else visibleCount);
    MulMonotone(childWidth, maxAvailable, visibleCount);
    Share(childWidth, childWidth, width - childWidth * visibleCount)
  }

  /** Visible children other than the selected one. */
  function InactiveCount(vis: seq<bool>, selected: nat): (n: nat)
    requires selected < |vis|
    ensures n + (if vis[selected] then 1 else 0) == VisibleCount(vis)
  {
    if vis[selected] then
      VisibleBeforeStrict(vis, selected, |vis|);
      VisibleCount(vis) - 1
    else
      VisibleCount(vis)
  }

  /**
    The selected child's starting width: its desired width from the AT_MOST measure when it is
    visible (never below the active minimum), and the active minimum when it is GONE.
   */
  function ActiveItemWidth(activeVisible: bool, desiredWidth: nat, dims: Dimensions): (w: int)
    ensures w >= dims.activeItemMinWidth
    ensures activeVisible ==> w >= desiredWidth
    ensures w == dims.activeItemMinWidth || (activeVisible && w == desiredWidth)
  {
    if activeVisible then Max(dims.activeItemMinWidth, desiredWidth) else dims.activeItemMinWidth
  }

  /**
    Shifting: the selected child is sized first, kept under the active maximum and small enough
    to leave every other visible child its minimum; the others split what remains evenly, unless
    the even share is capped at the inactive maximum.
   */
  function ShiftingShare(width: nat, vis: seq<bool>, selected: nat, desiredWidth: nat, dims: Dimensions): (s: Share)
    requires selected < |vis|
    ensures s.activeWidth <= dims.activeItemMaxWidth
    ensures s.activeWidth + InactiveCount(vis, selected) * dims.inactiveItemMinWidth <= width
    ensures s.activeWidth <= ActiveItemWidth(vis[selected], desiredWidth, dims)
    ensures s.activeWidth == ActiveItemWidth(vis[selected], desiredWidth, dims)
         || s.activeWidth == dims.activeItemMaxWidth
         || s.activeWidth == width - InactiveCount(vis, selected) * dims.inactiveItemMinWidth
    ensures s.inactiveWidth <= dims.inactiveItemMaxWidth
    ensures s.inactiveWidth * InactiveCount(vis, selected) <= width - s.activeWidth
    ensures InactiveCount(vis, selected) >= 1 ==>
      s.inactiveWidth == dims.inactiveItemMaxWidth || s.extra < InactiveCount(vis, selected)
    ensures s.activeWidth + s.inactiveWidth * InactiveCount(vis, selected) + s.extra == width
    ensures s.extra >= 0
  {
    var inactiveCount := InactiveCount(vis, selected);
    var activeItemWidth := ActiveItemWidth(vis[selected], desiredWidth, dims);
    var activeMaxAvailable := width - inactiveCount * dims.inactiveItemMinWidth;
    var activeWidth := Min(activeMaxAvailable, Min(activeItemWidth, dims.activeItemMaxWidth));
    var divisor := if inactiveCount == 0 then 1 else inactiveCount;
    var inactiveMaxAvailable := (width - activeWidth) / divisor;
    var inactiveWidth := Min(inactiveMaxAvailable, dims.inactiveItemMaxWidth);
    DivBounds(width - activeWidth, divisor);
    MulMonotone(inactiveWidth, inactiveMaxAvailable, inactiveCount);
    var extra := width - activeWidth - inactiveWidth * inactiveCount;
    assert inactiveCount >= 1 ==> inactiveWidth == dims.inactiveItemMaxWidth || extra < inactiveCount by {
      if inactiveCount >= 1 {
        InactiveSplitArith(width - activeWidth, inactiveCount, dims.inactiveItemMaxWidth,
          dims.inactiveItemMinWidth, inactiveWidth, extra);
      }
    }
    Share(activeWidth, inactiveWidth, width - activeWidth - inactiveWidth * inactiveCount)
  }

  // ---------------------------------------------------------------------------------------
  // The distribution loop
  // ---------------------------------------------------------------------------------------

  /** The width child `i` starts from before any leftover pixel. */
  function Base(selected: nat, s: Share, i: nat): int
  {
    if i == selected then s.activeWidth else s.inactiveWidth
  }

  /** Whether child `i` receives a leftover pixel: it does when fewer than `extra` visible children precede it. */
  function Bonus(vis: seq<bool>, s: Share, i: nat): int
    requires i < |vis|
  {
    if VisibleBefore(vis, i) < s.extra then 1 else 0
  }

  /** The width of child `i` once the leftover pixels are handed out in index order; GONE children get 0. */
  function Slot(vis: seq<bool>, selected: nat, s: Share, i: nat): int
    requires i < |vis|
  {
    if vis[i] then Base(selected, s, i) + Bonus(vis, s, i) else 0
  }

  /** The widths of all children for one share. */
  function Widths(vis: seq<bool>, selected: nat, s: Share): (ws: seq<int>)
    ensures |ws| == |vis|
    ensures forall i :: 0 <= i < |vis| ==> ws[i] == Slot(vis, selected, s, i)
  {
    seq(|vis|, i requires 0 <= i < |vis| => Slot(vis, selected, s, i))
  }

  /**
    The loop itself: one pass over the children with a running count of leftover pixels, which
    each visible child takes one of while any remain. What is left at the end is the part of the
    gap the loop could not fill.
   */
  method FillWidths(vis: seq<bool>, selected: nat, s: Share) returns (ws: seq<int>, leftover: int)
    requires s.extra >= 0
    ensures ws == Widths(vis, selected, s)
    ensures leftover == Max(s.extra - VisibleCount(vis), 0)
  {
    ws := [];
    leftover := s.extra;
    var i := 0;
    while i < |vis|
      invariant 0 <= i <= |vis|
      invariant |ws| == i
      invariant forall j :: 0 <= j < i ==> ws[j] == Slot(vis, selected, s, j)
      invariant leftover == Max(s.extra - VisibleBefore(vis, i), 0)
    {
      var w := 0;
      if vis[i] {
        w := if i == selected then s.activeWidth else s.inactiveWidth;
        if leftover > 0 {
          w := w + 1;
          leftover := leftover - 1;
        }
      }
      ws := ws + [w];
      i := i + 1;
    }
  }

  function NonShiftingWidths(width: nat, vis: seq<bool>, dims: Dimensions): seq<int>
  {
    Widths(vis, 0, NonShiftingShare(width, VisibleCount(vis), dims))
  }

  function ShiftingWidths(width: nat, vis: seq<bool>, selected: nat, desiredWidth: nat, dims: Dimensions): seq<int>
    requires selected < |vis|
  {
    Widths(vis, selected, ShiftingShare(width, vis, selected, desiredWidth, dims))
  }

  /**
    The measure pass: the shifting decision on the visible count picks the mode; the reported
    width is the sum of the visible children's widths and the height is the item height. The
    selected position is only read in shifting mode. The reported width stays within the
    available width except in shifting mode with a GONE selected child and a width too small
    for the other children's minimums.
   */
  function OnMeasure(width: nat, vis: seq<bool>, selected: nat, desiredWidth: nat, flag: Flag, dims: Dimensions): (m: Measured)
    requires IsShifting(flag, VisibleCount(vis)) ==> selected < |vis|
    ensures |m.widths| == |vis|
    ensures forall i :: 0 <= i < |vis| && !vis[i] ==> m.widths[i] == 0
    ensures IsShifting(flag, VisibleCount(vis)) ==>
      m.widths == ShiftingWidths(width, vis, selected, desiredWidth, dims)
    ensures !IsShifting(flag, VisibleCount(vis)) ==> m.widths == NonShiftingWidths(width, vis, dims)
    ensures m.width == VisibleSum(vis, m.widths, |vis|)
    ensures (IsShifting(flag, VisibleCount(vis)) ==>
               vis[selected] || width >= InactiveCount(vis, selected) * dims.inactiveItemMinWidth) ==>
            m.width <= width
    ensures m.height == dims.itemHeight
  {
    var shifting := IsShifting(flag, VisibleCount(vis));
    var widths :=
      if shifting then ShiftingWidths(width, vis, selected, desiredWidth, dims)
      else NonShiftingWidths(width, vis, dims);
    var m := Measured(widths, VisibleSum(vis, widths, |vis|), dims.itemHeight);
    if !shifting then
      NonShiftingTotal(width, vis, dims);
      m
    else if vis[selected] then
      ShiftingTotalActiveVisible(width, vis, selected, desiredWidth, dims);
      m
    else
      ShiftingTotalActiveGone(width, vis, selected, desiredWidth, dims);
      m
  }

  // ---------------------------------------------------------------------------------------
  // Properties of the distribution
  // ---------------------------------------------------------------------------------------

  /**
    Over the first `k` children the widths add up to the base widths of the visible ones plus
    one pixel for each of the first `extra` visible children.
   */
  lemma {:induction false} WidthsPrefixSum(vis: seq<bool>, selected: nat, s: Share, k: nat)
    requires k <= |vis| && s.extra >= 0
    ensures VisibleSum(vis, Widths(vis, selected, s), k)
         == (if selected < k && vis[selected]
             then s.activeWidth + (VisibleBefore(vis, k) - 1) * s.inactiveWidth
             else VisibleBefore(vis, k) * s.inactiveWidth)
          + Min(s.extra, VisibleBefore(vis, k))
  {
    if k > 0 {
      WidthsPrefixSum(vis, selected, s, k - 1);
      var ws := Widths(vis, selected, s);
      var c := VisibleBefore(vis, k - 1);
      assert VisibleSum(vis, ws, k) == VisibleSum(vis, ws, k - 1) + (if vis[k - 1] then ws[k - 1] else 0);
      if vis[k - 1] {
        assert ws[k - 1] == Base(selected, s, k - 1) + (if c < s.extra then 1 else 0);
        assert Min(s.extra, c + 1) == Min(s.extra, c) + (if c < s.extra then 1 else 0);
        MulStep(c, s.inactiveWidth);
      }
    }
  }

  /** The total over all children. */
  lemma WidthsSum(vis: seq<bool>, selected: nat, s: Share)
    requires s.extra >= 0
    ensures VisibleSum(vis, Widths(vis, selected, s), |vis|)
         == (if selected < |vis| && vis[selected]
             then s.activeWidth + (VisibleCount(vis) - 1) * s.inactiveWidth
             else VisibleCount(vis) * s.inactiveWidth)
          + Min(s.extra, VisibleCount(vis))
  {
    WidthsPrefixSum(vis, selected, s, |vis|);
  }

  /**
    When the selected child starts from the same width as the others, the total is that width
    per visible child plus the extra pixels that fit.
   */
  lemma UniformWidthsSum(vis: seq<bool>, selected: nat, s: Share)
    requires s.extra >= 0 && s.activeWidth == s.inactiveWidth
    ensures VisibleSum(vis, Widths(vis, selected, s), |vis|)
         == VisibleCount(vis) * s.inactiveWidth + Min(s.extra, VisibleCount(vis))
  {
    WidthsSum(vis, selected, s);
    MulStep(VisibleCount(vis), s.inactiveWidth);
  }

  /**
    Leftover pixels go to the earliest visible children: if a visible child received one, so
    did every visible child before it.
   */
  lemma ExtraPixelsGoFirst(vis: seq<bool>, s: Share, i: nat, j: nat)
    requires i < j < |vis| && vis[i] && vis[j]
    ensures Bonus(vis, s, j) == 1 ==> Bonus(vis, s, i) == 1
  {
    VisibleBeforeStrict(vis, i, j);
  }

  /**
    Non-shifting mode, per child: GONE children get 0, visible ones the capped equal share or
    one pixel more, so never more than one pixel above the cap, and the extra pixels sit at the
    front.
   */
  lemma NonShiftingShape(width: nat, vis: seq<bool>, dims: Dimensions)
    ensures var ws := NonShiftingWidths(width, vis, dims);
      && |ws| == |vis|
      && (forall i :: 0 <= i < |vis| && !vis[i] ==> ws[i] == 0)
      && (forall i :: 0 <= i < |vis| && vis[i] ==>
            var base := Min(width / Max(VisibleCount(vis), 1), dims.activeItemMaxWidth);
            ws[i] == base || ws[i] == base + 1)
      && (forall i :: 0 <= i < |vis| && vis[i] ==> 0 <= ws[i] <= dims.activeItemMaxWidth + 1)
      && (forall i, j :: 0 <= i < j < |vis| && vis[i] && vis[j] ==> ws[i] >= ws[j])
  {
    var s := NonShiftingShare(width, VisibleCount(vis), dims);
    var ws := NonShiftingWidths(width, vis, dims);
    forall i, j | 0 <= i < j < |vis| && vis[i] && vis[j]
      ensures ws[i] >= ws[j]
    {
      ExtraPixelsGoFirst(vis, s, i, j);
    }
  }

  /** The arithmetic behind the non-shifting total, on plain integers. */
  lemma NonShiftingTotalArith(width: nat, n: nat, cap: nat, cw: int, extra: int)
    requires n >= 1
    requires cw == Min(width / n, cap)
    requires cw * n + extra == width
    ensures n * cw + Min(extra, n) <= width
    ensures n * cw + Min(extra, n) == width <==> width <= n * (cap + 1)
    ensures width / n <= cap ==> n * cw + Min(extra, n) == width
  {
    DivBounds(width, n);
    var q := width / n;
    if q <= cap {
      assert cw == q;
      assert extra < n;
      MulMonotone(q + 1, cap + 1, n);
    } else {
      assert cw == cap;
      assert n * (cap + 1) == n * cw + n;
    }
  }

  /**
    Non-shifting mode, in total: the widths never add up to more than the available width, and
    they fill it exactly when it is at most one pixel per visible item above the cap. An equal
    share within the cap is enough for that, but not necessary.
   */
  lemma NonShiftingTotal(width: nat, vis: seq<bool>, dims: Dimensions)
    ensures VisibleSum(vis, NonShiftingWidths(width, vis, dims), |vis|) <= width
    ensures VisibleCount(vis) >= 1 ==>
      (VisibleSum(vis, NonShiftingWidths(width, vis, dims), |vis|) == width <==>
       width <= VisibleCount(vis) * (dims.activeItemMaxWidth + 1))
    ensures VisibleCount(vis) >= 1 && width / VisibleCount(vis) <= dims.activeItemMaxWidth ==>
      VisibleSum(vis, NonShiftingWidths(width, vis, dims), |vis|) == width
  {
    var n := VisibleCount(vis);
    var s := NonShiftingShare(width, n, dims);
    UniformWidthsSum(vis, 0, s);
    if n >= 1 {
      NonShiftingTotalArith(width, n, dims.activeItemMaxWidth, s.inactiveWidth, s.extra);
    }
  }

  /** Equal shares beyond the cap can still fill the width exactly: one item, cap 0, width 1. */
  lemma NonShiftingFillsBeyondCap()
    ensures var dims := Dimensions(0, 0, 0, 0, 0);
      && 1 / VisibleCount([true]) > dims.activeItemMaxWidth
      && NonShiftingWidths(1, [true], dims) == [1]
  {
    var dims := Dimensions(0, 0, 0, 0, 0);
    assert VisibleCount([true]) == 1;
    assert Slot([true], 0, NonShiftingShare(1, 1, dims), 0) == 1;
  }

  /** The split among the inactive children leaves fewer leftover pixels than children when it is not capped. */
  lemma InactiveSplitArith(rest: nat, count: nat, cap: nat, minimum: nat, w: int, extra: int)
    requires count >= 1
    requires w == Min(rest / count, cap)
    requires w * count + extra == rest
    ensures extra >= 0
    ensures rest / count <= cap ==> extra < count
    ensures w == cap || extra < count
    ensures rest >= count * minimum && minimum <= cap ==> w >= minimum
  {
    DivBounds(rest, count);
    MulMonotone(w, rest / count, count);
    if rest >= count * minimum && rest / count < minimum {
      MulMonotone(rest / count + 1, minimum, count);
    }
  }

  /**
    Shifting mode: the selected child reaches the active minimum whenever the width leaves room
    for it after every other visible child's minimum and the active maximum does not forbid it.
   */
  lemma ActiveWidthReachesMin(width: nat, vis: seq<bool>, selected: nat, desiredWidth: nat, dims: Dimensions)
    requires selected < |vis|
    requires width - InactiveCount(vis, selected) * dims.inactiveItemMinWidth >= dims.activeItemMinWidth
    requires dims.activeItemMaxWidth >= dims.activeItemMinWidth
    ensures ShiftingShare(width, vis, selected, desiredWidth, dims).activeWidth >= dims.activeItemMinWidth
  {
  }

  /** ... but not otherwise: a single visible item in zero width gets 0, below an active minimum of 10. */
  lemma ActiveWidthCanMissMin()
    ensures var dims := Dimensions(10, 10, 10, 10, 10);
      ShiftingShare(0, [true], 0, 0, dims).activeWidth == 0 < dims.activeItemMinWidth
  {
    assert VisibleCount([true]) == 1;
  }

  /**
    Shifting mode: a visible selected child whose desired width lies between the active minimum
    and maximum, and still leaves every other visible child its minimum, gets exactly that width
    as its base.
   */
  lemma ActiveWidthIsDesired(width: nat, vis: seq<bool>, selected: nat, desiredWidth: nat, dims: Dimensions)
    requires selected < |vis| && vis[selected]
    requires dims.activeItemMinWidth <= desiredWidth <= dims.activeItemMaxWidth
    requires desiredWidth <= width - InactiveCount(vis, selected) * dims.inactiveItemMinWidth
    ensures ShiftingShare(width, vis, selected, desiredWidth, dims).activeWidth == desiredWidth
  {
  }

  /**
    Shifting mode does not keep the selected child at least as wide as the others: with four
    visible items in 385 pixels and the last one selected, the leftover pixel goes to the first
    item, which ends one pixel wider than the selected one.
   */
  lemma ShiftingActiveCanBeNarrower()
    ensures ShiftingWidths(385, [true, true, true, true], 3, 0, Dimensions(96, 56, 168, 96, 56))
         == [97, 96, 96, 96]
  {
    var vis := [true, true, true, true];
    var dims := Dimensions(96, 56, 168, 96, 56);
    assert VisibleBefore(vis, 1) == 1 && VisibleBefore(vis, 2) == 2 && VisibleBefore(vis, 3) == 3;
    assert VisibleCount(vis) == 4;
    assert ShiftingShare(385, vis, 3, 0, dims) == Share(96, 96, 1);
  }

  /**
    Nor does it keep the selected child within the active maximum: a single item in 100 pixels
    with an active maximum of 10 gets its leftover pixel on top, 11 in all.
   */
  lemma ShiftingActiveCanExceedMax()
    ensures ShiftingWidths(100, [true], 0, 50, Dimensions(10, 0, 10, 0, 0)) == [11]
  {
    assert VisibleCount([true]) == 1;
    assert ShiftingShare(100, [true], 0, 50, Dimensions(10, 0, 10, 0, 0)) == Share(10, 10, 90);
  }

  /**
    Shifting mode: when some visible child is not selected, each such child gets at least the
    inactive minimum (if the minimum does not exceed the maximum) and the leftover pixels are
    fewer than those children whenever the split was not capped.
   */
  lemma InactiveWidthBounds(width: nat, vis: seq<bool>, selected: nat, desiredWidth: nat, dims: Dimensions)
    requires selected < |vis|
    requires InactiveCount(vis, selected) >= 1
    ensures var s := ShiftingShare(width, vis, selected, desiredWidth, dims);
      && (dims.inactiveItemMinWidth <= dims.inactiveItemMaxWidth ==> s.inactiveWidth >= dims.inactiveItemMinWidth)
      && ((width - s.activeWidth) / InactiveCount(vis, selected) <= dims.inactiveItemMaxWidth ==>
            s.extra < InactiveCount(vis, selected))
  {
    var s := ShiftingShare(width, vis, selected, desiredWidth, dims);
    var ic := InactiveCount(vis, selected);
    InactiveSplitArith(width - s.activeWidth, ic, dims.inactiveItemMaxWidth, dims.inactiveItemMinWidth,
      s.inactiveWidth, s.extra);
  }

  /**
    Shifting mode, per child: GONE children (a GONE selected child included) get 0, the visible
    selected child the active width or one pixel more (so at most one pixel above the active
    maximum), every other visible child the inactive width or one pixel more, and the extra
    pixels sit at the front.
   */
  lemma ShiftingShape(width: nat, vis: seq<bool>, selected: nat, desiredWidth: nat, dims: Dimensions)
    requires selected < |vis|
    ensures var s := ShiftingShare(width, vis, selected, desiredWidth, dims);
      var ws := ShiftingWidths(width, vis, selected, desiredWidth, dims);
      && |ws| == |vis|
      && (forall i :: 0 <= i < |vis| && !vis[i] ==> ws[i] == 0)
      && (vis[selected] ==> ws[selected] == s.activeWidth || ws[selected] == s.activeWidth + 1)
      && (vis[selected] ==> ws[selected] <= dims.activeItemMaxWidth + 1)
      && (forall i :: 0 <= i < |vis| && vis[i] && i != selected ==>
            ws[i] == s.inactiveWidth || ws[i] == s.inactiveWidth + 1)
      && (forall i, j :: 0 <= i < j < |vis| && vis[i] && vis[j] && ws[j] == Base(selected, s, j) + 1 ==>
            ws[i] == Base(selected, s, i) + 1)
  {
    var s := ShiftingShare(width, vis, selected, desiredWidth, dims);
    forall i, j | 0 <= i < j < |vis| && vis[i] && vis[j]
      ensures Bonus(vis, s, j) == 1 ==> Bonus(vis, s, i) == 1
    {
      ExtraPixelsGoFirst(vis, s, i, j);
    }
  }

  /**
    Shifting mode, in total, with the selected child visible: the widths never exceed the
    available width, and fill it exactly when some other child is visible and their split was
    not capped.
   */
  lemma ShiftingTotalActiveVisible(width: nat, vis: seq<bool>, selected: nat, desiredWidth: nat, dims: Dimensions)
    requires selected < |vis| && vis[selected]
    ensures var s := ShiftingShare(width, vis, selected, desiredWidth, dims);
      var ic := InactiveCount(vis, selected);
      var total := VisibleSum(vis, ShiftingWidths(width, vis, selected, desiredWidth, dims), |vis|);
      && total <= width
      && (ic >= 1 && (width - s.activeWidth) / ic <= dims.inactiveItemMaxWidth ==> total == width)
  {
    var s := ShiftingShare(width, vis, selected, desiredWidth, dims);
    var ic := InactiveCount(vis, selected);
    WidthsSum(vis, selected, s);
    assert ic == VisibleCount(vis) - 1;
    if ic >= 1 {
      InactiveWidthBounds(width, vis, selected, desiredWidth, dims);
    }
  }

  /**
    Shifting mode, in total, with the selected child GONE: its active width is still held back
    from the others, so the total stays within the width minus that active width, and equals it
    when some child is visible and the split was not capped.
   */
  lemma ShiftingTotalActiveGone(width: nat, vis: seq<bool>, selected: nat, desiredWidth: nat, dims: Dimensions)
    requires selected < |vis| && !vis[selected]
    ensures var s := ShiftingShare(width, vis, selected, desiredWidth, dims);
      var ic := InactiveCount(vis, selected);
      var total := VisibleSum(vis, ShiftingWidths(width, vis, selected, desiredWidth, dims), |vis|);
      && total <= width - s.activeWidth
      && (ic >= 1 && (width - s.activeWidth) / ic <= dims.inactiveItemMaxWidth ==> total == width - s.activeWidth)
  {
    var s := ShiftingShare(width, vis, selected, desiredWidth, dims);
    var ic := InactiveCount(vis, selected);
    WidthsSum(vis, selected, s);
    if ic >= 1 {
      InactiveWidthBounds(width, vis, selected, desiredWidth, dims);
    }
  }

  /** Shifting mode: no width is negative when the width covers every inactive child's minimum. */
  lemma ShiftingWidthsNonNegative(width: nat, vis: seq<bool>, selected: nat, desiredWidth: nat, dims: Dimensions)
    requires selected < |vis|
    requires width >= InactiveCount(vis, selected) * dims.inactiveItemMinWidth
    ensures forall i :: 0 <= i < |vis| ==> ShiftingWidths(width, vis, selected, desiredWidth, dims)[i] >= 0
  {
    var s := ShiftingShare(width, vis, selected, desiredWidth, dims);
    var ic := InactiveCount(vis, selected);
    assert s.activeWidth >= 0;
    DivBounds(width - s.activeWidth, if ic == 0 then 1 else ic);
    assert s.inactiveWidth >= 0;
  }

  /**
    ... and below that bound the selected child's width goes negative: two visible items in zero
    width with every dimension 1 get -1 and 1.
   */
  lemma ShiftingActiveWidthCanBeNegative()
    ensures ShiftingWidths(0, [true, true], 0, 0, Dimensions(1, 1, 1, 1, 1)) == [-1, 1]
  {
    var vis := [true, true];
    var dims := Dimensions(1, 1, 1, 1, 1);
    assert VisibleBefore(vis, 1) == 1;
    assert VisibleCount(vis) == 2;
    var s := ShiftingShare(0, vis, 0, 0, dims);
    assert s == Share(-1, 1, 0);
  }

  /**
    With the selected child GONE and too little width, the visible children together overflow
    it: one visible item beside a GONE selected one in zero width gets 1 pixel.
   */
  lemma ShiftingGoneActiveCanOverflow()
    ensures var vis := [false, true];
      var ws := ShiftingWidths(0, vis, 0, 0, Dimensions(1, 1, 1, 1, 1));
      ws == [0, 1] && VisibleSum(vis, ws, |vis|) == 1
  {
    var vis := [false, true];
    var dims := Dimensions(1, 1, 1, 1, 1);
    assert VisibleBefore(vis, 1) == 0;
    assert VisibleCount(vis) == 1;
    var s := ShiftingShare(0, vis, 0, 0, dims);
    assert s == Share(-1, 1, 0);
  }
}

=== FILE: optional.dfy ===
/** An optional value: the model's stand-in for a nullable reference or a search that can fail. */
module Optional {

  datatype Option<+T> = None | Some(value: T)
}

=== FILE: selection.dfy ===
/**
  The selection bookkeeping of the menu view: rebuilding the item buttons from the menu,
  refreshing them in place, and restoring a selection by item id. The view keeps the id and
  the position of the selected item; the menu's items carry the checked flags.
 */
module Selection {
  import opened Optional
  import opened Children
  import opened Ints
  import opened ShiftingMode

  /** A menu entry as the view reads and writes it. */
  datatype MenuItem = MenuItem(id: int, checkable: bool, checked: bool, visible: bool)

  /** An item button: its position in the row, the id of the item it shows, and whether it shifts. */
  datatype Button = Button(position: nat, itemId: int, shifting: bool)

  /**
    The view's state. `menu` is None until the view is initialised with one; `buttons` is None
    until the first build, and again after a build over an empty menu.
   */
  datatype MenuView = MenuView(
    menu: Option<seq<MenuItem>>,
    buttons: Option<seq<Button>>,
    selectedId: int,
    selectedPosition: nat,
    flag: Flag)

  /** The result of a refresh: the new state and whether a selection-change transition starts. */
  datatype Updated = Updated(view: MenuView, transition: bool)

  /** A freshly constructed view: no menu, no buttons, id and position 0. */
  function NewView(flag: Flag): MenuView
  {
    MenuView(None, None, 0, 0, flag)
  }

  /** Attaching the menu the view observes. */
  function Initialize(v: MenuView, items: seq<MenuItem>): MenuView
  {
    v.(menu := Some(items))
  }

  /** The visibility flags of the items, which their buttons take on. */
  function Visibility(items: seq<MenuItem>): (vis: seq<bool>)
    ensures |vis| == |items|
    ensures forall i :: 0 <= i < |items| ==> vis[i] == items[i].visible
  {
    seq(|items|, i requires 0 <= i < |items| => items[i].visible)
  }

  /** The selected position lies within the buttons, and each button knows its own position. */
  ghost predicate Consistent(v: MenuView)
  {
    v.buttons.Some? ==>
      && v.selectedPosition < |v.buttons.value|
      && forall i :: 0 <= i < |v.buttons.value| ==> v.buttons.value[i].position == i
  }

  /** The view has a menu and buttons, one per item. */
  ghost predicate InSync(v: MenuView)
  {
    v.menu.Some? && v.buttons.Some? && |v.menu.value| == |v.buttons.value|
  }

  /** The last checked item among the first `k`, if any. */
  function LastCheckedBefore(items: seq<MenuItem>, k: nat): (r: Option<nat>)
    requires k <= |items|
    ensures r.None? ==> forall j :: 0 <= j < k ==> !items[j].checked
    ensures r.Some? ==>
      && r.value < k
      && items[r.value].checked
      && forall j :: r.value < j < k ==> !items[j].checked
  {
    if k == 0 then None
    else if items[k - 1].checked then Some(k - 1)
    else LastCheckedBefore(items, k - 1)
  }

  function LastChecked(items: seq<MenuItem>): Option<nat>
  {
    LastCheckedBefore(items, |items|)
  }

  /** The first item at or after `k` whose id is `itemId`, if any. */
  function FirstWithIdFrom(items: seq<MenuItem>, itemId: int, k: nat): (r: Option<nat>)
    requires k <= |items|
    ensures r.None? ==> forall j :: k <= j < |items| ==> items[j].id != itemId
    ensures r.Some? ==>
      && k <= r.value < |items|
      && items[r.value].id == itemId
      && forall j :: k <= j < r.value ==> items[j].id != itemId
    decreases |items| - k
  {
    if k == |items| then None
    else if items[k].id == itemId then Some(k)
    else FirstWithIdFrom(items, itemId, k + 1)
  }

  function FirstWithId(items: seq<MenuItem>, itemId: int): Option<nat>
  {
    FirstWithIdFrom(items, itemId, 0)
  }

  /** Marks item `i` checked and leaves everything else as it was. */
  function Check(items: seq<MenuItem>, i: nat): (r: seq<MenuItem>)
    requires i < |items|
    ensures |r| == |items| && r[i].checked
    ensures r[i] == items[i].(checked := true)
    ensures forall j :: 0 <= j < |items| && j != i ==> r[j] == items[j]
  {
    items[i := items[i].(checked := true)]
  }

  /**
    Rebuilding the buttons from scratch. An empty menu leaves no buttons and resets the id and
    the position to 0. Otherwise every item is made checkable, there is one button per item at
    its own position showing that item, the position is clamped into the menu and the item there
    is checked. The selected id is not touched.
   */
  function Build(v: MenuView): (v': MenuView)
    requires v.menu.Some?
    ensures v'.flag == v.flag && v'.menu.Some? && |v'.menu.value| == |v.menu.value|
    ensures |v.menu.value| == 0 ==> v' == v.(buttons := None, selectedId := 0, selectedPosition := 0)
    ensures |v.menu.value| > 0 ==>
      var items := v.menu.value;
      var items' := v'.menu.value;
      && InSync(v')
      && v'.selectedId == v.selectedId
      && v'.selectedPosition == Min(|items| - 1, v.selectedPosition)
      && items'[v'.selectedPosition].checked
      && (forall i :: 0 <= i < |items| ==>
            && items'[i].checkable
            && items'[i].id == items[i].id
            && items'[i].visible == items[i].visible
            && (i != v'.selectedPosition ==> items'[i].checked == items[i].checked))
      && (forall i :: 0 <= i < |items| ==>
            v'.buttons.value[i] == Button(i, items[i].id, IsShifting(v.flag, VisibleCount(Visibility(items)))))
  {
    var items := v.menu.value;
    if |items| == 0 then
      v.(buttons := None, selectedId := 0, selectedPosition := 0)
    else
      var shifting := IsShifting(v.flag, VisibleCount(Visibility(items)));
      var checkable := seq(|items|, i requires 0 <= i < |items| => items[i].(checkable := true));
      var buttons := seq(|items|, i requires 0 <= i < |items| => Button(i, items[i].id, shifting));
      var position := if v.selectedPosition < |items| - 1 then v.selectedPosition else |items| - 1;
      v.(menu := Some(Check(checkable, position)), buttons := Some(buttons), selectedPosition := position)
  }

  /** The refresh loop over the items: the last checked item decides the selected id and position. */
  method ScanChecked(items: seq<MenuItem>, selectedId: int, selectedPosition: nat)
    returns (id: int, position: nat)
    ensures LastChecked(items).None? ==> id == selectedId && position == selectedPosition
    ensures LastChecked(items).Some? ==>
      position == LastChecked(items).value && id == items[position].id
  {
    id, position := selectedId, selectedPosition;
    var i := 0;
    while i < |items|
      invariant 0 <= i <= |items|
      invariant LastCheckedBefore(items, i).None? ==> id == selectedId && position == selectedPosition
      invariant LastCheckedBefore(items, i).Some? ==>
        position == LastCheckedBefore(items, i).value && id == items[position].id
    {
      if items[i].checked {
        id := items[i].id;
        position := i;
      }
      i := i + 1;
    }
  }

  /**
    Refreshing after a menu change. Nothing happens without a menu or without buttons; a menu
    whose size no longer matches the buttons is rebuilt. Otherwise the last checked item becomes
    the selection (the old one stays when none is checked), every button is re-bound to its item
    with the current shifting decision, and a transition starts exactly when the selected id
    changed.
   */
  function Update(v: MenuView): (u: Updated)
    ensures v.menu.None? || v.buttons.None? ==> u == Updated(v, false)
    ensures v.menu.Some? && v.buttons.Some? && |v.menu.value| != |v.buttons.value| ==>
      u == Updated(Build(v), false)
    ensures InSync(v) ==>
      var items := v.menu.value;
      && u.view.menu == v.menu
      && u.view.flag == v.flag
      && InSync(u.view)
      && (LastChecked(items).None? ==>
            u.view.selectedId == v.selectedId && u.view.selectedPosition == v.selectedPosition)
      && (LastChecked(items).Some? ==>
            && u.view.selectedPosition == LastChecked(items).value
            && items[u.view.selectedPosition].checked
            && u.view.selectedId == items[u.view.selectedPosition].id)
      && (u.transition <==> u.view.selectedId != v.selectedId)
      && (forall i :: 0 <= i < |items| ==>
            u.view.buttons.value[i] == Button(v.buttons.value[i].position, items[i].id,
                                              IsShifting(v.flag, VisibleCount(Visibility(items)))))
  {
    if v.menu.None? || v.buttons.None? then Updated(v, false)
    else
      var items := v.menu.value;
      var buttons := v.buttons.value;
      if |items| != |buttons| then Updated(Build(v), false)
      else
        var last := LastChecked(items);
        var id := if last.Some? then items[last.value].id else v.selectedId;
        var position := if last.Some? then last.value else v.selectedPosition;
        var shifting := IsShifting(v.flag, VisibleCount(Visibility(items)));
        var rebound := seq(|items|, i requires 0 <= i < |items| =>
          buttons[i].(itemId := items[i].id, shifting := shifting));
        Updated(v.(buttons := Some(rebound), selectedId := id, selectedPosition := position), id != v.selectedId)
  }

  /**
    Restoring a selection by id: the first item with that id becomes the selection and is
    checked; when no item has it nothing changes.
   */
  function TryRestore(v: MenuView, itemId: int): (v': MenuView)
    requires v.menu.Some?
    ensures FirstWithId(v.menu.value, itemId).None? ==> v' == v
    ensures FirstWithId(v.menu.value, itemId).Some? ==>
      var i := FirstWithId(v.menu.value, itemId).value;
      && v' == v.(menu := Some(Check(v.menu.value, i)), selectedId := itemId, selectedPosition := i)
      && (forall j :: 0 <= j < i ==> v.menu.value[j].id != itemId)
      && v'.menu.value[i].id == itemId && v'.menu.value[i].checked
  {
    match FirstWithId(v.menu.value, itemId)
    case None => v
    case Some(i) => v.(menu := Some(Check(v.menu.value, i)), selectedId := itemId, selectedPosition := i)
  }

  // ---------------------------------------------------------------------------------------
  // Properties across operations
  // ---------------------------------------------------------------------------------------

  /** A fresh view is consistent, and so is one just attached to a menu. */
  lemma NewViewConsistent(flag: Flag, items: seq<MenuItem>)
    ensures Consistent(NewView(flag)) && Consistent(Initialize(NewView(flag), items))
  {
  }

  /** A build leaves the view consistent, and in sync with its menu whenever it has buttons. */
  lemma BuildConsistent(v: MenuView)
    requires v.menu.Some?
    ensures Consistent(Build(v))
    ensures Build(v).buttons.Some? ==> InSync(Build(v))
  {
  }

  /** A refresh keeps the selected position within the buttons. */
  lemma UpdateConsistent(v: MenuView)
    requires Consistent(v)
    ensures Consistent(Update(v).view)
  {
    if v.menu.Some? && v.buttons.Some? && |v.menu.value| != |v.buttons.value| {
      BuildConsistent(v);
    }
  }

  /** A restore keeps the selected position within the buttons when the buttons match the menu. */
  lemma RestoreConsistent(v: MenuView, itemId: int)
    requires Consistent(v) && v.menu.Some?
    requires v.buttons.Some? ==> |v.buttons.value| == |v.menu.value|
    ensures Consistent(TryRestore(v, itemId))
  {
  }

  /**
    ... but not when the menu has grown since the last build: an id found past the last button
    moves the selected position out of the buttons.
   */
  lemma RestoreCanOutrunButtons()
    ensures var v := MenuView(Some([MenuItem(1, true, true, true), MenuItem(7, true, false, true)]),
                              Some([Button(0, 1, false)]), 1, 0, Auto);
      Consistent(v) && !Consistent(TryRestore(v, 7))
  {
    var items := [MenuItem(1, true, true, true), MenuItem(7, true, false, true)];
    assert FirstWithIdFrom(items, 7, 1) == Some(1);
  }

  /** A refresh of a view in sync with its menu settles at once: a second one changes nothing and animates nothing. */
  lemma UpdateSettles(v: MenuView)
    requires InSync(v)
    ensures Update(Update(v).view) == Updated(Update(v).view, false)
  {
    var u := Update(v).view;
    var items := v.menu.value;
    var shifting := IsShifting(v.flag, VisibleCount(Visibility(items)));
    var u2 := Update(u).view;
    assert u2.selectedId == u.selectedId && u2.selectedPosition == u.selectedPosition;
    assert u2.buttons.value == u.buttons.value;
  }

  /**
    A rebuild followed by a refresh selects the last checked item, which sits at or after the
    clamped position because the build checked that one; the refresh animates exactly when that
    item's id differs from the id the build kept.
   */
  lemma BuildThenUpdate(v: MenuView)
    requires v.menu.Some? && |v.menu.value| > 0
    ensures var b := Build(v);
      var u := Update(b);
      && u.view.selectedPosition >= b.selectedPosition
      && b.menu.value[u.view.selectedPosition].checked
      && (u.transition <==> b.menu.value[u.view.selectedPosition].id != v.selectedId)
  {
    var b := Build(v);
    assert b.menu.value[b.selectedPosition].checked;
  }

  /**
    A restore followed by a refresh of a view in sync with its menu keeps the restored item
    selected, without a transition, as long as no later item is checked.
   */
  lemma RestoreThenUpdate(v: MenuView, itemId: int)
    requires InSync(v)
    requires FirstWithId(v.menu.value, itemId).Some?
    requires forall j :: FirstWithId(v.menu.value, itemId).value < j < |v.menu.value| ==> !v.menu.value[j].checked
    ensures var r := TryRestore(v, itemId);
      var u := Update(r);
      && u.view.selectedPosition == FirstWithId(v.menu.value, itemId).value
      && u.view.selectedId == itemId
      && !u.transition
  {
    var r := TryRestore(v, itemId);
    var i := FirstWithId(v.menu.value, itemId).value;
    assert r.menu.value[i].checked;
  }
}

=== FILE: shifting_mode.dfy ===
/**
  The shifting-mode override flag of the bottom navigation menu and the decision it drives:
  whether the selected item grows and the others shrink.
 */
module ShiftingMode {

  /** The three values the flag may take (AUTO is the default). */
  datatype Flag = Auto | On | Off

  /**
    Whether a menu with `childCount` visible items shifts. ON forces shifting, OFF forbids it,
    and AUTO shifts only from four items upwards.
   */
  function IsShifting(flag: Flag, childCount: int): (shifting: bool)
    ensures flag == On ==> shifting
    ensures flag == Off ==> !shifting
    ensures flag == Auto ==> (shifting <==> childCount >= 4)
  {
    match flag
    case Auto => childCount > 3
    case On => true
    case Off => false
  }

  /**
    In AUTO mode a menu of exactly three items does not shift; the setter's documentation,
    which speaks of "3 or more", is not what the decision does.
   */
  lemma AutoThresholdIsFour()
    ensures !IsShifting(Auto, 3)
    ensures IsShifting(Auto, 4)
  {
  }

  /** Under AUTO, adding items never turns shifting off. */
  lemma AutoMonotone(fewer: int, more: int)
    requires fewer <= more
    ensures IsShifting(Auto, fewer) ==> IsShifting(Auto, more)
  {
  }
}
